=== FILE: README.md ===
# Electrostatics visualizer: a Dafny model of its core

The visualizer is a single web page. A fixed unit charge sits at the origin
of a 2-D world. The user places point charges around it, and the page reports
the Coulomb force each of them exerts on the central charge, along with the
resultant. This project models the page's logic in three modules, all in
`script.js`, with the DOM and canvas calls left out:

- `Charges` (`charges.dfy`) is the charge store. It is an ordered
  `seq<Charge>` with the handlers that add a charge, delete one by index,
  clear them all, and edit a charge's x, y or magnitude.
- `Coulomb` (`coulomb.dfy`) is the arithmetic of `draw`. For each charge it
  computes the displacement to the central charge and the distance. A charge
  closer than `1e-9` gets an undefined report. Otherwise the report holds the
  scalar magnitude `k|q1 q2|/r^2`, the components `k q1 q2 d/r^3`, and the
  label repulsion or attraction. The module also sums the net vector and
  gives its magnitude.
- `Drag` (`drag.dfy`) is the pointer state machine. It holds the selected
  index and the grab offset. It covers the hit test on press, the
  world-to-pixel transform used while dragging, and release.

`Page` (`page.dfy`) states facts about the page's own central charge, `Coulomb.Central`.
`Reals` (`reals.dfy`) holds small facts about absolute value, `Math.sign`,
squares and cubes. `Wrappers` (`wrappers.dfy`) holds `Option`.

Numbers are exact reals. `Math.sqrt` becomes a function parameter `sqrt`
that is assumed, through the predicate `Coulomb.IsSqrt`, to return the exact
non-negative root. `Math.random` is replaced by the two draws `u, v` in
`[0, 1)` that `Charges.Add` takes as parameters. `parseFloat` of the
magnitude field becomes the datatype `Parsed = Number(value) | NaN`. The
comparison `Math.hypot(dx, dy) < 10` is stated as `dx^2 + dy^2 < 10^2`, which
is the same condition over the reals. The lemmas are generic in the central
charge `c`. The page itself uses `Coulomb.Central`, a charge of `+1` at the
origin.

Two facts about the code are worth stating, because the model follows
them exactly. First, the displacement is central charge minus source charge
(script.js:119-120). So a unit charge at (3, 0) acting on the unit central
charge gives the force (-k/9, 0): it pushes the central charge along -x,
away from itself (`Page.CentralChargeAtThree`). Second, no handler clamps
positions. The field edits (script.js:61) and dragging (script.js:249-250)
store whatever number they compute, and so does the model.

## Model

| member | source | states |
|---|---|---|
| `Charges.Add` | script.js:17-26 | A magnitude that does not parse leaves the list unchanged and raises the alert. A number appends exactly one charge and keeps every earlier one. The new charge's q is the number typed when "positive" is selected and its negation otherwise. So its size is that of the number, and for a positive number its sign follows the selector. It lands in [-3, 3) x [-2, 2). |
| `Charges.Delete` | script.js:72 | Removing index i: the length drops by one, the multiset loses exactly charge i, earlier charges keep their index and later ones shift down by one. An index past the end removes nothing. |
| `Charges.Clear` | script.js:30 | The list is empty afterwards. |
| `Charges.Edit` | script.js:57-62 | The `input` handler as written. An x or y edit changes only that coordinate of that charge. A q edit is `Charges.EditQAsWritten`. No other charge changes, and an index that names no charge leaves the list unchanged. |
| `Charges.EditCorrected` | script.js:57-62 | The same handler with the corrected magnitude edit `Charges.EditQ`. The x, y, frame and stale-index clauses are the same as for `Charges.Edit`. |
| `Charges.EditsAgreeOffNegativeMagnitudes` | script.js:61-62 | The handler as written and the corrected one give the same list exactly when the edit is not a negative number typed into the magnitude field of an existing non-zero charge. |
| `Charges.EditCoordinateLastWins` | script.js:61 | A second x or y edit of the same charge overrides the first. Typing a coordinate's current value changes nothing. |
| `Charges.EditQ` | script.js:62 | The corrected magnitude edit. A non-zero value keeps the charge's sign, a non-zero charge takes the size of the value, and a zero charge stays zero. Position and other charges are untouched. |
| `Charges.EditQAsWritten` | script.js:49-62 | The magnitude edit as the handler computes it, `Math.sign(old q) * value`. A non-zero charge takes the size of the value, and its sign is kept for a positive value and reversed for a negative one. A zero charge stays zero. Position and other charges are untouched. |
| `Charges.EditQAsWrittenFlipsPolarity` | script.js:49-62 | A negative value typed over a negative charge makes the charge positive, so typing the same value again changes it again. |
| `Charges.EditQAsWrittenExample` | script.js:49-62 | A charge of -2 edited to -2.5 becomes +2.5 as written, and -2.5 with the corrected edit. |
| `Charges.EditQIdempotent` | script.js:62 | Applying the corrected magnitude edit twice has the same effect as applying it once. |
| `Charges.AddThenDelete` | script.js:17-26 | Deleting the charge just added gives back the list as it was. |
| `Reals.Sign` | script.js:62 | `Math.sign` is one of 1, -1, 0. It times x is the absolute value of x, it is 0 exactly for 0, and it is 1 exactly for positive x. |
| `Coulomb.CoulombAt` | script.js:128-140 | For a positive distance the report is defined and its scalar magnitude is non-negative. With `Coulomb.InverseSquare`, `Coulomb.ProportionalToCharge` and `Coulomb.MagnitudeIgnoresDirection`, the magnitude is pinned to `k |q1 q2| / r^2` for every direction of the displacement. |
| `Coulomb.InverseSquare` | script.js:128 | The inverse-square law: at `t` times the distance the scalar magnitude is `1/t^2` times as large. |
| `Coulomb.ProportionalToCharge` | script.js:128 | Scaling the charge product by `a` scales the scalar magnitude by `|a|`. |
| `Coulomb.MagnitudeIgnoresDirection` | script.js:128 | The scalar magnitude depends only on the distance, not on the direction of the displacement. |
| `Coulomb.ForceOf` | script.js:119-140 | A report is undefined exactly when the charge is closer than `1e-9` to the central charge. A defined report has a non-negative magnitude, and it is Coulomb's law for the product `q1 q2` at the distance `sqrt(dx^2 + dy^2)`, which is then positive. |
| `Coulomb.ForceAtDistance` | script.js:119-128 | For a charge that is not coincident, the distance r is positive with `r^2 = dx^2 + dy^2`, and the report is Coulomb's law at r. |
| `Coulomb.CoulombAtScaled` | script.js:128-132 | The force components are the displacement scaled by a factor w whose sign is the sign of the charge product. The scalar magnitude is `|w r|`. |
| `Coulomb.ForceScaled` | script.js:131-132 | The force components are `k q1 q2 / r^3` times the displacement. |
| `Coulomb.ForceIsScaledDisplacement` | script.js:119-132 | For a charge that is not coincident, the distance r is positive with `r^2 = dx^2 + dy^2`. The force is the displacement scaled by w, whose sign is the sign of `q1 q2`, and the magnitude is `|w r|`. |
| `Coulomb.ForceDirection` | script.js:119-140 | The label is repulsion exactly when `q1 q2 > 0`. Then the force dotted with `(dx, dy)` is positive. For a negative product it is negative, and a zero product gives the zero force with magnitude 0. |
| `Coulomb.ForceMagnitude` | script.js:128-132 | `Fx^2 + Fy^2 = Fm^2` for every defined report. |
| `Coulomb.Contribution` | script.js:122-138 | What one charge adds to the running totals: nothing when it is closer than `1e-9` to the central charge, and its force otherwise. |
| `Coulomb.Draw` | script.js:95-171 | One report per charge, in list order, each the force of that charge. The totals are the resultant of the defined forces. The net magnitude is non-negative and its square is `totalFx^2 + totalFy^2`. The net arrow is drawn exactly when the resultant is not zero. |
| `Coulomb.RunningTotal` | script.js:137-138 | One iteration of the loop adds the contribution of charge i to the resultant of the charges before it. |
| `Coulomb.NetArrowShown` | script.js:160-171 | The net magnitude is positive exactly when the resultant vector is not zero. |
| `Coulomb.TotalAppend` | script.js:137-138 | Summing over two lists placed one after the other gives the sum of the two sums. |
| `Coulomb.NetForceAppend` | script.js:122-138 | Superposition: the resultant of two lists placed one after the other is the sum of their resultants. |
| `Coulomb.NetForceSkipsCoincident` | script.js:122-125 | Inserting a charge whose force is undefined anywhere in the list leaves the resultant unchanged. |
| `Coulomb.DeleteCoincidentKeepsForce` | script.js:72 | Deleting a charge whose force is undefined leaves the resultant unchanged. |
| `Coulomb.AddCoincidentKeepsForce` | script.js:17-26 | An add that places the new charge on the central charge leaves the resultant unchanged, and so does a rejected add. |
| `Coulomb.NetForceRemoveAt` | script.js:131-138 | The resultant of a list is the contribution of any one of its charges plus the resultant of the others. |
| `Coulomb.TotalPermutation` | script.js:137-138 | A sum does not depend on the order of the list: two lists with the same multiset of elements have the same sum. |
| `Coulomb.NetForcePermutation` | script.js:131-138 | The resultant does not depend on the order of the list: any two lists with the same multiset of charges have the same resultant. |
| `Coulomb.ClearLeavesNoForce` | script.js:30 | After "clear all" the resultant is the zero vector, so no net arrow is drawn. |
| `Coulomb.MirroredPairCancels` | script.js:131-138 | Two equal charges placed symmetrically about the central charge give a zero resultant. |
| `Coulomb.MirroredForcesCancel` | script.js:119-132 | For a charge that is not coincident, its reflection through the central charge exerts exactly the opposite force. |
| `Coulomb.CoulombAtOpposite` | script.js:131-132 | Opposite displacements at the same distance give opposite force vectors. |
| `Page.CentralChargeAtThree` | script.js:5-7 | A charge of +1 at (3, 0) acting on the page's central charge, +1 at the origin, gives the magnitude `k/9`, the force `(-k/9, 0)` and the label repulsion. |
| `Coulomb.OneChargeAtThree` | script.js:119-140 | Take a unit charge three units to the right of a unit central charge. Its report is the magnitude `k/9` with force `(-k/9, 0)`, labelled repulsion, and that force is also the resultant. |
| `Drag.PixelRoundTrip` | script.js:100-101 | Mapping a world position to its pixel and back gives the position again. |
| `Drag.WorldRoundTrip` | script.js:249-250 | Mapping a pixel to the world and back gives the pixel again. |
| `Drag.Grab` | script.js:215-217 | Grabbing selects index i and keeps an offset such that the charge's pixel is the pointer minus the offset. |
| `Drag.MouseDown` | script.js:204-221 | If no charge lies within 10 px of the pointer, the state is unchanged. Otherwise the first such charge in list order is grabbed, and no earlier charge is within 10 px. |
| `Drag.MouseMove` | script.js:247-253 | The selected charge is moved so that its pixel is the pointer minus the grab offset, and it keeps its q. Every other charge is unchanged. With no selection, or a selection that names no charge, nothing moves. |
| `Drag.Release` | script.js:256-259 | Releasing the button or leaving the canvas clears the selection. The stale offset stays. |
| `Drag.DragRoundTrip` | script.js:211-219 | A move to the very point of the press that grabbed a charge leaves every charge where it was. |
| `Drag.IdleMoveChangesNothing` | script.js:10-11 | At page load nothing is selected, so pointer moves change no charge. |
| `Drag.ReleasedMoveChangesNothing` | script.js:248-259 | After a release, pointer moves change no charge. |

## Left out

- Canvas drawing, including the force arrows, the `ctx.*` calls, colours and dashes. It is a rendering side effect.
- Rebuilding the DOM list, the `innerHTML` text, event-listener wiring, the hover tooltip (radius 12 px) and `console.log`. These are UI glue with no state that the model keeps.
- `formatSci` and `toFixed`. They rest on `Number.prototype.toExponential` and string splitting, which are not visible here.
- The angle of the resultant (`Math.atan2` and the degree conversion). It is transcendental floating-point arithmetic.
- IEEE-754 rounding, `NaN` and `Infinity`. Everything is an exact real. In particular, a field edit whose text does not parse stores `NaN` in the source, while the model takes the edited value as a real. The arrow of a zero charge, which divides by `Fm = 0`, is not modelled either.
- `Math.random` and `Math.sqrt`. Their results are parameters: the draws `u, v` and the exact root `sqrt`.
- Negative or non-numeric `data-index` values for delete and edit. The page only generates indices 0 to n-1.
- `modal.js`. It only shows and hides a help dialog.
- `Coulomb.Draw`: the results-panel HTML is not produced. The method returns the per-charge reports and the totals it would print.

## Findings

| source | as written | input that shows it | evidently intended | confidence | as-written member | corrected member |
|---|---|---|---|---|---|---|
| script.js:49-62 | The magnitude field is pre-filled with the signed q, but the handler stores `Math.sign(old q) * value`. | A charge of q = -2. The user types -2.5 into its field, and the charge becomes +2.5. | Keep the charge's polarity and take the size of the number typed: `Math.sign(old q) * abs(value)`. | medium, not executed | `Charges.EditQAsWrittenFlipsPolarity` | `Charges.EditQ` |

=== FILE: charges.dfy ===
/** The charge store: an ordered list of point charges placed by the user,
    and the handlers of the control panel that add, delete, clear and edit
    them. A charge is identified by its position in the list, so deleting
    one shifts every later charge down by one. */
module Charges {
  import opened Wrappers
  import opened Reals

  /** A point charge: world position (x, y) and signed magnitude q. */
  datatype Charge = Charge(x: real, y: real, q: real)

  /** What `parseFloat` yields for the text of an input field. */
  datatype Parsed = Number(value: real) | NaN

  /** The per-charge numeric fields of the list (`data-attr`). */
  datatype Field = X | Y | Q

  /** The outcome of pressing "add": the list afterwards and the alert shown, if any. */
  datatype AddOutcome = AddOutcome(charges: seq<Charge>, alert: Option<string>)

  const InvalidMagnitude: string := "Ingresa una magnitud válida"

  /** The "add" button. `u` and `v` are the two `Math.random()` draws that
      place the new charge; `kind` is the value of the polarity selector. */
  function Add(cs: seq<Charge>, kind: string, magnitude: Parsed, u: real, v: real): (r: AddOutcome)
    requires 0.0 <= u < 1.0 && 0.0 <= v < 1.0
    ensures magnitude.NaN? ==> r.charges == cs && r.alert == Some(InvalidMagnitude)
    ensures magnitude.Number? ==>
      && r.alert.None?
      && |r.charges| == |cs| + 1
      && r.charges[..|cs|] == cs
      && Abs(r.charges[|cs|].q) == Abs(magnitude.value)
      && (0.0 < magnitude.value ==> (0.0 < r.charges[|cs|].q <==> kind == "positive"))
      && -3.0 <= r.charges[|cs|].x < 3.0
      && -2.0 <= r.charges[|cs|].y < 2.0
    ensures magnitude.Number? && kind == "positive" ==> r.charges[|cs|].q == magnitude.value
    ensures magnitude.Number? && kind != "positive" ==> r.charges[|cs|].q == -magnitude.value
  {
    match magnitude
    case NaN => AddOutcome(cs, Some(InvalidMagnitude))
    case Number(m) =>
      var q := if kind == "positive" then m else -m;
      AddOutcome(cs + [Charge(u * 6.0 - 3.0, v * 4.0 - 2.0, q)], None)
  }

  /** The delete button of charge `i`: `splice(i, 1)`, which removes nothing
      when `i` is past the end. */
  function Delete(cs: seq<Charge>, i: nat): (r: seq<Charge>)
    ensures i < |cs| ==> |r| == |cs| - 1 && multiset(r) + multiset{cs[i]} == multiset(cs)
    ensures i < |cs| ==> forall j :: 0 <= j < i ==> r[j] == cs[j]
    ensures i < |cs| ==> forall j :: i <= j < |r| ==> r[j] == cs[j + 1]
    ensures |cs| <= i ==> r == cs
  {
    if i < |cs| then
      assert cs == cs[..i] + [cs[i]] + cs[i + 1..];
      cs[..i] + cs[i + 1..]
    else cs
  }

  /** The "clear all" button. */
  function Clear(cs: seq<Charge>): (r: seq<Charge>)
    ensures |r| == 0
  {
    []
  }

  /** A magnitude edit as the handler computes it: the old sign times the
      number typed, although the field is pre-filled with the signed q. */
  function EditQAsWritten(cs: seq<Charge>, i: nat, value: real): (r: seq<Charge>)
    ensures |r| == |cs|
    ensures forall j :: 0 <= j < |cs| && j != i ==> r[j] == cs[j]
    ensures i < |cs| ==> r[i].x == cs[i].x && r[i].y == cs[i].y
    ensures i < |cs| && cs[i].q != 0.0 ==> Abs(r[i].q) == Abs(value)
    ensures i < |cs| && 0.0 < value ==> Sign(r[i].q) == Sign(cs[i].q)
    ensures i < |cs| && value < 0.0 ==> Sign(r[i].q) == -Sign(cs[i].q)
    ensures i < |cs| && cs[i].q == 0.0 ==> r[i].q == 0.0
    ensures |cs| <= i ==> r == cs
  {
    if i < |cs| then cs[i := cs[i].(q := Sign(cs[i].q) * value)] else cs
  }

  /** A magnitude edit that keeps the polarity of the charge and takes the
      size of the number typed. */
  function EditQ(cs: seq<Charge>, i: nat, value: real): (r: seq<Charge>)
    ensures |r| == |cs|
    ensures forall j :: 0 <= j < |cs| && j != i ==> r[j] == cs[j]
    ensures i < |cs| ==> r[i].x == cs[i].x && r[i].y == cs[i].y
    ensures i < |cs| && value != 0.0 ==> Sign(r[i].q) == Sign(cs[i].q)
    ensures i < |cs| && cs[i].q != 0.0 ==> Abs(r[i].q) == Abs(value)
    ensures i < |cs| && cs[i].q == 0.0 ==> r[i].q == 0.0
    ensures |cs| <= i ==> r == cs
  {
    if i < |cs| then cs[i := cs[i].(q := Sign(cs[i].q) * Abs(value))] else cs
  }

  /** The `input` handler of a numeric field of charge `i`, as written:
      x and y are overwritten and q goes through `EditQAsWritten`. When `i`
      names no charge the handler throws before it stores anything. */
  function Edit(cs: seq<Charge>, i: nat, field: Field, value: real): (r: seq<Charge>)
    ensures |r| == |cs|
    ensures forall j :: 0 <= j < |cs| && j != i ==> r[j] == cs[j]
    ensures |cs| <= i ==> r == cs
    ensures i < |cs| && field == X ==> r[i].x == value && r[i].y == cs[i].y && r[i].q == cs[i].q
    ensures i < |cs| && field == Y ==> r[i].y == value && r[i].x == cs[i].x && r[i].q == cs[i].q
    ensures field == Q ==> r == EditQAsWritten(cs, i, value)
  {
    if |cs| <= i then cs
    else
      match field
      case X => cs[i := cs[i].(x := value)]
      case Y => cs[i := cs[i].(y := value)]
      case Q => EditQAsWritten(cs, i, value)
  }

  /** The same handler with the corrected magnitude edit `EditQ`. */
  function EditCorrected(cs: seq<Charge>, i: nat, field: Field, value: real): (r: seq<Charge>)
    ensures |r| == |cs|
    ensures forall j :: 0 <= j < |cs| && j != i ==> r[j] == cs[j]
    ensures |cs| <= i ==> r == cs
    ensures i < |cs| && field == X ==> r[i].x == value && r[i].y == cs[i].y && r[i].q == cs[i].q
    ensures i < |cs| && field == Y ==> r[i].y == value && r[i].x == cs[i].x && r[i].q == cs[i].q
    ensures field == Q ==> r == EditQ(cs, i, value)
  {
    if |cs| <= i then cs
    else
      match field
      case X => cs[i := cs[i].(x := value)]
      case Y => cs[i := cs[i].(y := value)]
      case Q => EditQ(cs, i, value)
  }

  /** The two handlers differ only on magnitude edits that type a negative
      number over a non-zero charge; everywhere else they agree. */
  lemma EditsAgreeOffNegativeMagnitudes(cs: seq<Charge>, i: nat, field: Field, value: real)
    ensures Edit(cs, i, field, value) == EditCorrected(cs, i, field, value)
      <==> (field != Q || |cs| <= i || 0.0 <= value || cs[i].q == 0.0)
  {
    if field == Q && i < |cs| && value < 0.0 && cs[i].q != 0.0 {
      assert Edit(cs, i, field, value)[i].q != EditCorrected(cs, i, field, value)[i].q;
    }
  }

  /** Editing a coordinate to the value it already has changes nothing, and
      a later edit of the same field overrides an earlier one. */
  lemma EditCoordinateLastWins(cs: seq<Charge>, i: nat, field: Field, a: real, b: real)
    requires field != Q
    ensures Edit(Edit(cs, i, field, a), i, field, b) == Edit(cs, i, field, b)
    ensures i < |cs| && field == X ==> Edit(cs, i, X, cs[i].x) == cs
    ensures i < |cs| && field == Y ==> Edit(cs, i, Y, cs[i].y) == cs
  {
  }

  /** Deleting the charge just added gives back the list as it was. */
  lemma AddThenDelete(cs: seq<Charge>, kind: string, m: real, u: real, v: real)
    requires 0.0 <= u < 1.0 && 0.0 <= v < 1.0
    ensures Delete(Add(cs, kind, Number(m), u, v).charges, |cs|) == cs
  {
    var added := Add(cs, kind, Number(m), u, v).charges;
    assert added[..|cs|] == cs;
  }

  /** Typing the same magnitude twice has the effect of typing it once. */
  lemma EditQIdempotent(cs: seq<Charge>, i: nat, value: real)
    ensures EditQ(EditQ(cs, i, value), i, value) == EditQ(cs, i, value)
  {
  }

  /** Editing the magnitude field of a negative charge, which shows its
      signed value, to another negative number turns the charge positive. */
  lemma EditQAsWrittenFlipsPolarity(cs: seq<Charge>, i: nat, value: real)
    requires i < |cs| && cs[i].q < 0.0 && value < 0.0
    ensures 0.0 < EditQAsWritten(cs, i, value)[i].q
    ensures EditQAsWritten(EditQAsWritten(cs, i, value), i, value) != EditQAsWritten(cs, i, value)
  {
  }

  /** The concrete case: a charge of -2 whose field is changed to -2.5. */
  lemma EditQAsWrittenExample()
    ensures EditQAsWritten([Charge(1.0, 1.0, -2.0)], 0, -2.5) == [Charge(1.0, 1.0, 2.5)]
    ensures EditQ([Charge(1.0, 1.0, -2.0)], 0, -2.5) == [Charge(1.0, 1.0, -2.5)]
  {
  }
}

=== FILE: coulomb.dfy ===
/** The arithmetic of the redraw: the Coulomb force each charge of the list
    exerts on the central charge, its classification as repulsion or
    attraction, and the resultant over every charge whose force is defined.
    Numbers are exact reals; the square root is a parameter `sqrt` that
    returns the exact non-negative root. */
module Coulomb {
  import opened Reals
  import opened Charges

  /** Coulomb's constant, in the units the display uses. */
  const K: real := 9000000000.0
  /** Separations below this are reported as undefined. */
  const Epsilon: real := 0.000000001
  /** The fixed charge at the origin on which the forces are evaluated. */
  const Central: Charge := Charge(0.0, 0.0, 1.0)

  datatype Vec = Vec(x: real, y: real) {
    function Plus(o: Vec): Vec { Vec(x + o.x, y + o.y) }
    function Dot(o: Vec): real { x * o.x + y * o.y }
    function Norm2(): real { Sq(x) + Sq(y) }
  }

  const Zero: Vec := Vec(0.0, 0.0)

  datatype Kind = Repulsion | Attraction

  /** One line of the results panel: undefined (the charge sits on the
      central charge), or the scalar magnitude, the force vector and its kind. */
  datatype Report = Undefined | Defined(magnitude: real, force: Vec, kind: Kind)

  /** `sqrt` is the exact square root on the non-negative reals. */
  ghost predicate IsSqrt(sqrt: real -> real) {
    forall x {:trigger sqrt(x)} :: 0.0 <= x ==> 0.0 <= sqrt(x) && Sq(sqrt(x)) == x
  }

  /** The vector from charge `p` to the central charge `c`. */
  function Displacement(c: Charge, p: Charge): Vec {
    Vec(c.x - p.x, c.y - p.y)
  }

  /** `p` is too close to `c` for its force to be defined: its distance,
      the root of this squared length, is below `Epsilon`. */
  predicate Coincident(c: Charge, p: Charge) {
    Displacement(c, p).Norm2() < Sq(Epsilon)
  }

  /** The squared length is non-negative, and zero only for the zero vector. */
  lemma NormZero(v: Vec)
    ensures 0.0 <= v.Norm2()
    ensures v.Norm2() == 0.0 <==> v == Zero
  {
    SquareNonNegative(v.x);
    SquareNonNegative(v.y);
  }

  /** The force of a charge at distance `r > 0` with charge product `qq`
      and displacement `d`: the scalar magnitude `k |qq| / r^2`, the
      components `k qq d / r^3`, and the kind read off the sign of `qq`. */
  function CoulombAt(qq: real, d: Vec, r: real): (rep: Report)
    requires 0.0 < r
    ensures rep.Defined? && 0.0 <= rep.magnitude
  {
    SquarePositive(r);
    CubePositive(r);
    Defined(K * Abs(qq) / Sq(r),
            Vec(K * qq * d.x / Cube(r), K * qq * d.y / Cube(r)),
            if qq > 0.0 then Repulsion else Attraction)
  }

  /** The force `p` exerts on `c`, as one iteration of the redraw loop
      computes it: undefined when the distance r is below `Epsilon`, and
      otherwise Coulomb's law at that positive distance with the charge
      product `q1 q2`. */
  function ForceOf(c: Charge, sqrt: real -> real, p: Charge): (rep: Report)
    requires IsSqrt(sqrt)
    ensures rep.Undefined? <==> Coincident(c, p)
    ensures rep.Defined? ==> 0.0 <= rep.magnitude
    ensures rep.Defined? ==>
      && 0.0 < sqrt(Displacement(c, p).Norm2())
      && rep == CoulombAt(Product(c.q, p.q), Displacement(c, p), sqrt(Displacement(c, p).Norm2()))
  {
    var d := Displacement(c, p);
    NormZero(d);
    var r := sqrt(d.Norm2());
    SquareMonotone(r, Epsilon);
    if r < Epsilon then Undefined else CoulombAt(Product(c.q, p.q), d, r)
  }

  /** A Coulomb force is the displacement scaled by `w = k qq / r^3`, and
      its scalar magnitude is `|w r|`. */
  lemma CoulombAtScaled(qq: real, d: Vec, r: real) returns (w: real)
    requires 0.0 < r
    ensures 0.0 < w <==> 0.0 < qq
    ensures w < 0.0 <==> qq < 0.0
    ensures CoulombAt(qq, d, r).force == Vec(w * d.x, w * d.y)
    ensures CoulombAt(qq, d, r).magnitude == Abs(w * r)
  {
    CubePositive(r);
    SquarePositive(r);
    w := K * qq / Cube(r);
    ForceScaled(qq, d, r);
    ScaleKeepsSign(qq, K);
    ScaleKeepsSign(K * qq, Cube(r));
    DivideCancel(K * qq, Sq(r), r);
    assert w * r == K * qq / Sq(r);
    AbsScale(K, qq, Sq(r));
  }

  /** The components are `k qq / r^3` times the displacement. */
  lemma ForceScaled(qq: real, d: Vec, r: real)
    requires 0.0 < r
    ensures CoulombAt(qq, d, r).force == Vec((K * qq / Cube(r)) * d.x, (K * qq / Cube(r)) * d.y)
  {
    CubePositive(r);
    DivideProduct(K * qq, d.x, Cube(r));
    DivideProduct(K * qq, d.y, Cube(r));
  }

  /** The inverse-square law: moving the charge `t` times as far away
      divides the scalar magnitude by `t^2`. */
  lemma InverseSquare(qq: real, d: Vec, r: real, t: real)
    requires 0.0 < r && 0.0 < t
    ensures Sq(t) * CoulombAt(qq, d, t * r).magnitude == CoulombAt(qq, d, r).magnitude
  {
    ProductPositive(t, r);
    assert Product(t, r) == t * r;
    SquarePositive(r);
    SquarePositive(t);
    SquareOfProduct(t, r);
  }

  /** The scalar magnitude is proportional to the size of the charge product. */
  lemma ProportionalToCharge(a: real, qq: real, d: Vec, r: real)
    requires 0.0 < r
    ensures CoulombAt(a * qq, d, r).magnitude == Abs(a) * CoulombAt(qq, d, r).magnitude
  {
    SquarePositive(r);
    assert Abs(a * qq) == Abs(a) * Abs(qq);
  }

  /** The scalar magnitude depends on the distance alone, not on the
      direction of the displacement. */
  lemma MagnitudeIgnoresDirection(qq: real, d: Vec, e: Vec, r: real)
    requires 0.0 < r
    ensures CoulombAt(qq, d, r).magnitude == CoulombAt(qq, e, r).magnitude
  {
  }

  /** A defined force is the displacement scaled by `w`, where r is the
      distance, and its scalar magnitude is `|w r|`. */
  lemma ForceIsScaledDisplacement(c: Charge, sqrt: real -> real, p: Charge)
    returns (w: real, r: real)
    requires IsSqrt(sqrt) && !Coincident(c, p)
    ensures 0.0 < r && Sq(r) == Displacement(c, p).Norm2()
    ensures 0.0 < w <==> 0.0 < c.q * p.q
    ensures w < 0.0 <==> c.q * p.q < 0.0
    ensures ForceOf(c, sqrt, p).force == Vec(w * Displacement(c, p).x, w * Displacement(c, p).y)
    ensures ForceOf(c, sqrt, p).magnitude == Abs(w * r)
  {
    r := ForceAtDistance(c, sqrt, p);
    w := CoulombAtScaled(Product(c.q, p.q), Displacement(c, p), r);
  }

  /** A charge that is not coincident is at a positive distance r with
      `r^2 = dx^2 + dy^2`, and its report is Coulomb's law at r. */
  lemma ForceAtDistance(c: Charge, sqrt: real -> real, p: Charge) returns (r: real)
    requires IsSqrt(sqrt) && !Coincident(c, p)
    ensures 0.0 < r && Sq(r) == Displacement(c, p).Norm2()
    ensures ForceOf(c, sqrt, p) == CoulombAt(Product(c.q, p.q), Displacement(c, p), r)
  {
    NormZero(Displacement(c, p));
    r := sqrt(Displacement(c, p).Norm2());
    assert ForceOf(c, sqrt, p).Defined?;
  }

  /** The label agrees with the direction of the arrow: a repulsion pushes
      the central charge along the displacement away from `p`, an attraction
      between charges of opposite sign pulls it back towards `p`, and a
      zero charge exerts no force and is labelled an attraction. */
  lemma ForceDirection(c: Charge, sqrt: real -> real, p: Charge)
    requires IsSqrt(sqrt) && !Coincident(c, p)
    ensures ForceOf(c, sqrt, p).kind == Repulsion <==> 0.0 < c.q * p.q
    ensures 0.0 < c.q * p.q ==> 0.0 < ForceOf(c, sqrt, p).force.Dot(Displacement(c, p))
    ensures c.q * p.q < 0.0 ==> ForceOf(c, sqrt, p).force.Dot(Displacement(c, p)) < 0.0
    ensures c.q * p.q == 0.0 ==> ForceOf(c, sqrt, p).force == Zero && ForceOf(c, sqrt, p).magnitude == 0.0
  {
    var d := Displacement(c, p);
    var w, r := ForceIsScaledDisplacement(c, sqrt, p);
    var n := d.Norm2();
    assert 0.0 < n by {
      SquarePositive(r);
    }
    calc {
      ForceOf(c, sqrt, p).force.Dot(d);
      == (w * d.x) * d.x + (w * d.y) * d.y;
      == w * n;
    }
    ScaleKeepsSign(w, n);
  }

  /** The components and the scalar magnitude describe the same vector:
      `Fx^2 + Fy^2 == Fm^2`. */
  lemma ForceMagnitude(c: Charge, sqrt: real -> real, p: Charge)
    requires IsSqrt(sqrt) && !Coincident(c, p)
    ensures ForceOf(c, sqrt, p).force.Norm2() == Sq(ForceOf(c, sqrt, p).magnitude)
  {
    var d := Displacement(c, p);
    var w, r := ForceIsScaledDisplacement(c, sqrt, p);
    SquareOfProduct(w, d.x);
    SquareOfProduct(w, d.y);
    SquareOfProduct(w, r);
    SquareOfAbs(w * r);
    var f := ForceOf(c, sqrt, p).force;
    assert f.x == w * d.x && f.y == w * d.y;
    calc {
      f.Norm2();
      == Sq(f.x) + Sq(f.y);
      == Sq(w * d.x) + Sq(w * d.y);
      == Sq(w) * Sq(d.x) + Sq(w) * Sq(d.y);
      == Sq(w) * d.Norm2();
      == Sq(w) * Sq(r);
      == Sq(w * r);
      == Sq(ForceOf(c, sqrt, p).magnitude);
    }
  }

  /** The sum of `f` over the list `xs`, first element first. */
  function Total<T>(f: T -> Vec, xs: seq<T>): Vec
    decreases |xs|
  {
    if xs == [] then Zero else f(xs[0]).Plus(Total(f, xs[1..]))
  }

  /** What one charge adds to the running totals: nothing when its force is
      undefined, and its force otherwise. */
  function Contribution(c: Charge, sqrt: real -> real, p: Charge): (f: Vec)
    requires IsSqrt(sqrt)
    ensures Coincident(c, p) ==> f == Zero
    ensures !Coincident(c, p) ==> f == ForceOf(c, sqrt, p).force
  {
    match ForceOf(c, sqrt, p)
    case Undefined => Zero
    case Defined(_, f, _) => f
  }

  /** `Contribution` as a function of the source charge alone. */
  function Contributions(c: Charge, sqrt: real -> real): Charge -> Vec
    requires IsSqrt(sqrt)
  {
    p => Contribution(c, sqrt, p)
  }

  /** The resultant: the sum of the forces of the well-defined charges of `cs`. */
  function NetForce(c: Charge, sqrt: real -> real, cs: seq<Charge>): Vec
    requires IsSqrt(sqrt)
  {
    Total(Contributions(c, sqrt), cs)
  }

  /** The arithmetic of `draw`: one report per charge, in list order, the
      running totals, the net magnitude and whether the net arrow is drawn. */
  method Draw(c: Charge, sqrt: real -> real, cs: seq<Charge>)
    returns (reports: seq<Report>, total: Vec, magnitude: real, arrow: bool)
    requires IsSqrt(sqrt)
    ensures |reports| == |cs|
    ensures forall i :: 0 <= i < |cs| ==> reports[i] == ForceOf(c, sqrt, cs[i])
    ensures total == NetForce(c, sqrt, cs)
    ensures 0.0 <= magnitude && Sq(magnitude) == total.Norm2()
    ensures arrow <==> total != Zero
  {
    var totalFx, totalFy := 0.0, 0.0;
    reports := [];
    var i := 0;
    while i < |cs|
      invariant 0 <= i <= |cs|
      invariant |reports| == i
      invariant forall j :: 0 <= j < i ==> reports[j] == ForceOf(c, sqrt, cs[j])
      invariant Vec(totalFx, totalFy) == NetForce(c, sqrt, cs[..i])
    {
      var rep := ForceOf(c, sqrt, cs[i]);
      RunningTotal(c, sqrt, cs, i);
      reports := reports + [rep];
      if rep.Defined? {
        totalFx := totalFx + rep.force.x;
        totalFy := totalFy + rep.force.y;
      }
      i := i + 1;
    }
    assert cs[..i] == cs;
    total := Vec(totalFx, totalFy);
    NormZero(total);
    magnitude := sqrt(total.Norm2());
    NetArrowShown(total, magnitude);
    arrow := magnitude > 0.0;
  }

  /** One more iteration adds the contribution of charge `i` to the totals. */
  lemma RunningTotal(c: Charge, sqrt: real -> real, cs: seq<Charge>, i: nat)
    requires IsSqrt(sqrt) && i < |cs|
    ensures NetForce(c, sqrt, cs[..i + 1]) == NetForce(c, sqrt, cs[..i]).Plus(Contribution(c, sqrt, cs[i]))
  {
    assert cs[..i + 1] == cs[..i] + [cs[i]];
    NetForceAppend(c, sqrt, cs[..i], [cs[i]]);
    TotalSingle(Contributions(c, sqrt), cs[i]);
  }

  /** The net magnitude is positive exactly when the resultant is not zero. */
  lemma NetArrowShown(total: Vec, magnitude: real)
    requires 0.0 <= magnitude && Sq(magnitude) == total.Norm2()
    ensures magnitude > 0.0 <==> total != Zero
  {
    NormZero(total);
    SquareNonNegative(magnitude);
  }

  /** Summing over two lists placed one after the other adds their sums. */
  lemma {:induction false} TotalAppend<T>(f: T -> Vec, a: seq<T>, b: seq<T>)
    ensures Total(f, a + b) == Total(f, a).Plus(Total(f, b))
    decreases |a|
  {
    if a == [] {
      assert a + b == b;
    } else {
      assert (a + b)[0] == a[0];
      assert (a + b)[1..] == a[1..] + b;
      TotalAppend(f, a[1..], b);
    }
  }

  /** The sum over a one-element list is the value at that element. */
  lemma TotalSingle<T>(f: T -> Vec, x: T)
    ensures Total(f, [x]) == f(x)
  {
    assert [x][1..] == [];
  }

  /** Superposition over concatenation: the resultant of two lists placed
      one after the other is the sum of their resultants. */
  lemma NetForceAppend(c: Charge, sqrt: real -> real, a: seq<Charge>, b: seq<Charge>)
    requires IsSqrt(sqrt)
    ensures NetForce(c, sqrt, a + b) == NetForce(c, sqrt, a).Plus(NetForce(c, sqrt, b))
  {
    TotalAppend(Contributions(c, sqrt), a, b);
  }

  /** A charge whose force is undefined changes nothing: inserting it
      anywhere in the list leaves the resultant as it was. */
  lemma NetForceSkipsCoincident(c: Charge, sqrt: real -> real, a: seq<Charge>, p: Charge, b: seq<Charge>)
    requires IsSqrt(sqrt) && Coincident(c, p)
    ensures NetForce(c, sqrt, a + [p] + b) == NetForce(c, sqrt, a + b)
  {
    TotalSingle(Contributions(c, sqrt), p);
    assert NetForce(c, sqrt, [p]) == Zero;
    NetForceAppend(c, sqrt, a + [p], b);
    NetForceAppend(c, sqrt, a, [p]);
    NetForceAppend(c, sqrt, a, b);
    calc {
      NetForce(c, sqrt, a + [p] + b);
      == NetForce(c, sqrt, a + [p]).Plus(NetForce(c, sqrt, b));
      == NetForce(c, sqrt, a).Plus(Zero).Plus(NetForce(c, sqrt, b));
      == NetForce(c, sqrt, a).Plus(NetForce(c, sqrt, b));
      == NetForce(c, sqrt, a + b);
    }
  }

  /** Deleting a charge whose force is undefined leaves the resultant as it was. */
  lemma DeleteCoincidentKeepsForce(c: Charge, sqrt: real -> real, cs: seq<Charge>, i: nat)
    requires IsSqrt(sqrt) && i < |cs| && Coincident(c, cs[i])
    ensures NetForce(c, sqrt, Delete(cs, i)) == NetForce(c, sqrt, cs)
  {
    assert cs == cs[..i] + [cs[i]] + cs[i + 1..];
    assert Delete(cs, i) == cs[..i] + cs[i + 1..];
    NetForceSkipsCoincident(c, sqrt, cs[..i], cs[i], cs[i + 1..]);
  }

  /** Adding a charge that lands on the central charge leaves the resultant
      as it was; a rejected add changes nothing either. */
  lemma AddCoincidentKeepsForce(c: Charge, sqrt: real -> real, cs: seq<Charge>,
                                kind: string, magnitude: Parsed, u: real, v: real)
    requires IsSqrt(sqrt) && 0.0 <= u < 1.0 && 0.0 <= v < 1.0
    requires magnitude.Number? ==> Coincident(c, Add(cs, kind, magnitude, u, v).charges[|cs|])
    ensures NetForce(c, sqrt, Add(cs, kind, magnitude, u, v).charges) == NetForce(c, sqrt, cs)
  {
    var r := Add(cs, kind, magnitude, u, v).charges;
    if magnitude.Number? {
      var p := r[|cs|];
      assert r == cs + [p] + [];
      NetForceSkipsCoincident(c, sqrt, cs, p, []);
      assert cs + [] == cs;
    }
  }

  /** Taking element `j` out of a list takes one copy of it out of the multiset. */
  lemma MultisetRemoveAt<T>(xs: seq<T>, j: nat)
    requires j < |xs|
    ensures multiset(xs[..j] + xs[j + 1..]) == multiset(xs) - multiset{xs[j]}
  {
    assert xs == xs[..j] + [xs[j]] + xs[j + 1..];
    assert multiset(xs) == multiset(xs[..j]) + multiset{xs[j]} + multiset(xs[j + 1..]);
  }

  /** Splitting a list at element `j` splits its sum. */
  lemma TotalSplit<T>(f: T -> Vec, xs: seq<T>, j: nat)
    requires j < |xs|
    ensures Total(f, xs) == Total(f, xs[..j]).Plus(f(xs[j])).Plus(Total(f, xs[j + 1..]))
  {
    var x, pre, post := xs[j], xs[..j], xs[j + 1..];
    assert xs == pre + [x] + post;
    TotalAppend(f, pre + [x], post);
    TotalAppend(f, pre, [x]);
    TotalSingle(f, x);
  }

  /** The sum over a list is element `j` plus the sum over the others. */
  lemma TotalRemoveAt<T>(f: T -> Vec, xs: seq<T>, j: nat)
    requires j < |xs|
    ensures Total(f, xs) == f(xs[j]).Plus(Total(f, xs[..j] + xs[j + 1..]))
  {
    TotalSplit(f, xs, j);
    TotalAppend(f, xs[..j], xs[j + 1..]);
  }

  /** The sum does not depend on the order of the list. */
  lemma {:induction false} TotalPermutation<T>(f: T -> Vec, a: seq<T>, b: seq<T>)
    requires multiset(a) == multiset(b)
    ensures Total(f, a) == Total(f, b)
    decreases |a|
  {
    if a == [] {
      assert |b| == |multiset(b)| == 0;
    } else {
      var x := a[0];
      assert a == [x] + a[1..];
      assert multiset(a) == multiset{x} + multiset(a[1..]);
      assert x in multiset(b);
      var j :| 0 <= j < |b| && b[j] == x;
      var rest := b[..j] + b[j + 1..];
      MultisetRemoveAt(b, j);
      assert multiset(a[1..]) == multiset(rest);
      TotalPermutation(f, a[1..], rest);
      TotalRemoveAt(f, b, j);
    }
  }

  /** The resultant of a list is the force of element `j` plus the
      resultant of the others. */
  lemma NetForceRemoveAt(c: Charge, sqrt: real -> real, b: seq<Charge>, j: nat)
    requires IsSqrt(sqrt) && j < |b|
    ensures NetForce(c, sqrt, b) == Contribution(c, sqrt, b[j]).Plus(NetForce(c, sqrt, b[..j] + b[j + 1..]))
  {
    TotalRemoveAt(Contributions(c, sqrt), b, j);
  }

  /** The resultant does not depend on the order of the list: any
      rearrangement of the same charges gives the same totals. */
  lemma NetForcePermutation(c: Charge, sqrt: real -> real, a: seq<Charge>, b: seq<Charge>)
    requires IsSqrt(sqrt) && multiset(a) == multiset(b)
    ensures NetForce(c, sqrt, a) == NetForce(c, sqrt, b)
  {
    TotalPermutation(Contributions(c, sqrt), a, b);
  }

  /** "Clear all" leaves nothing to sum: the resultant is zero. */
  lemma ClearLeavesNoForce(c: Charge, sqrt: real -> real, cs: seq<Charge>)
    requires IsSqrt(sqrt)
    ensures NetForce(c, sqrt, Clear(cs)) == Zero
  {
  }

  /** `p` reflected through the central charge: same q, opposite side. */
  function Mirror(c: Charge, p: Charge): (m: Charge)
    ensures Displacement(c, m) == Vec(-Displacement(c, p).x, -Displacement(c, p).y)
    ensures Displacement(c, m).Norm2() == Displacement(c, p).Norm2()
    ensures m.q == p.q
  {
    Charge(2.0 * c.x - p.x, 2.0 * c.y - p.y, p.q)
  }

  /** Two equal charges placed symmetrically about the central charge
      cancel: the resultant of the pair is zero. */
  lemma MirroredPairCancels(c: Charge, sqrt: real -> real, p: Charge)
    requires IsSqrt(sqrt)
    ensures NetForce(c, sqrt, [p, Mirror(c, p)]) == Zero
  {
    var m := Mirror(c, p);
    NetForceAppend(c, sqrt, [p], [m]);
    assert [p] + [m] == [p, m];
    TotalSingle(Contributions(c, sqrt), p);
    TotalSingle(Contributions(c, sqrt), m);
    if !Coincident(c, p) {
      MirroredForcesCancel(c, sqrt, p);
    }
  }

  /** The force of the mirrored charge is the opposite of the force of `p`. */
  lemma MirroredForcesCancel(c: Charge, sqrt: real -> real, p: Charge)
    requires IsSqrt(sqrt) && !Coincident(c, p)
    ensures ForceOf(c, sqrt, Mirror(c, p)).force.Plus(ForceOf(c, sqrt, p).force) == Zero
  {
    var d := Displacement(c, p);
    assert ForceOf(c, sqrt, p).Defined?;
    assert ForceOf(c, sqrt, Mirror(c, p)).Defined?;
    CoulombAtOpposite(Product(c.q, p.q), d, sqrt(d.Norm2()));
  }

  /** Opposite displacements at the same distance give opposite forces. */
  lemma CoulombAtOpposite(qq: real, d: Vec, r: real)
    requires 0.0 < r
    ensures CoulombAt(qq, Vec(-d.x, -d.y), r).force.Plus(CoulombAt(qq, d, r).force) == Zero
  {
    CubePositive(r);
    var k := K * qq;
    assert k * -d.x == -(k * d.x);
    assert k * -d.y == -(k * d.y);
  }

  /** A unit charge three units to the right of a unit central charge
      pushes it with magnitude k / 9 along -x, away from itself; that is
      also the resultant. With the origin as centre this is the charge at
      (3, 0) acting on `Central`. */
  lemma OneChargeAtThree(c: Charge, sqrt: real -> real)
    requires IsSqrt(sqrt) && c.q == 1.0
    ensures ForceOf(c, sqrt, Charge(c.x + 3.0, c.y, 1.0)) == Defined(K / 9.0, Vec(-K / 9.0, 0.0), Repulsion)
    ensures NetForce(c, sqrt, [Charge(c.x + 3.0, c.y, 1.0)]) == Vec(-K / 9.0, 0.0)
  {
    var p := Charge(c.x + 3.0, c.y, 1.0);
    var d := Displacement(c, p);
    assert d == Vec(-3.0, 0.0);
    assert d.Norm2() == 9.0;
    var r := sqrt(9.0);
    assert Sq(r) == Sq(3.0);
    SquareInjective(r, 3.0);
    assert !Coincident(c, p);
    assert ForceOf(c, sqrt, p) == CoulombAt(1.0, d, 3.0);
    assert Sq(3.0) == 9.0 && Cube(3.0) == 27.0 && Abs(1.0) == 1.0;
    assert CoulombAt(1.0, d, 3.0) == Defined(K / 9.0, Vec(-K / 9.0, 0.0), Repulsion);
    TotalSingle(Contributions(c, sqrt), p);
  }
}

=== FILE: drag.dfy ===
/** The pointer interaction on the canvas: pressing on a charge grabs it,
    moving the pointer drags the grabbed charge, and releasing the button or
    leaving the canvas lets it go. Pixels and world units are related by a
    fixed scale of 50 pixels per unit, with the canvas centre at the world
    origin and pixel y growing downwards. */
module Drag {
  import opened Wrappers
  import opened Reals
  import opened Charges

  /** Pixels per world unit. */
  const Scale: real := 50.0
  /** Pixel radius within which a press grabs a charge. */
  const GrabRadius: real := 10.0

  /** The canvas centre in pixels: half the canvas width and height. */
  datatype View = View(cx: real, cy: real)

  datatype Point = Point(x: real, y: real)

  /** The interaction state: the index of the grabbed charge, if any, and
      the grab offset in world units. Releasing keeps the old offset. */
  datatype Pointer = Pointer(selected: Option<nat>, offsetX: real, offsetY: real)

  /** The state when the page loads. */
  const Idle: Pointer := Pointer(None, 0.0, 0.0)

  /** Where a world position is drawn on the canvas. */
  function ToPixel(view: View, x: real, y: real): Point {
    Point(view.cx + x * Scale, view.cy - y * Scale)
  }

  /** The world position under a canvas pixel. */
  function ToWorld(view: View, px: real, py: real): Point {
    Point((px - view.cx) / Scale, -(py - view.cy) / Scale)
  }

  lemma PixelRoundTrip(view: View, x: real, y: real)
    ensures ToWorld(view, ToPixel(view, x, y).x, ToPixel(view, x, y).y) == Point(x, y)
  {
  }

  lemma WorldRoundTrip(view: View, px: real, py: real)
    ensures ToPixel(view, ToWorld(view, px, py).x, ToWorld(view, px, py).y) == Point(px, py)
  {
  }

  /** The pointer at (mx, my) is strictly within the grab radius of the
      drawn position of `ch`; distances are compared through their squares. */
  predicate Hits(view: View, ch: Charge, mx: real, my: real) {
    var p := ToPixel(view, ch.x, ch.y);
    Sq(mx - p.x) + Sq(my - p.y) < Sq(GrabRadius)
  }

  /** The state after grabbing charge `i`, drawn at the pixel of `ch`, with
      the pointer at (mx, my): the offset between pointer and charge is
      kept so that the charge does not jump to the pointer. */
  function Grab(view: View, ch: Charge, i: nat, mx: real, my: real): (s: Pointer)
    ensures s.selected == Some(i)
    ensures ToPixel(view, ch.x, ch.y) == Point(mx - s.offsetX * Scale, my + s.offsetY * Scale)
  {
    var p := ToPixel(view, ch.x, ch.y);
    Pointer(Some(i), (mx - p.x) / Scale, -(my - p.y) / Scale)
  }

  /** A press at (mx, my): the first charge in list order within the grab
      radius is grabbed; when none is, the state stays as it was. */
  method MouseDown(cs: seq<Charge>, view: View, s: Pointer, mx: real, my: real) returns (s': Pointer)
    ensures (forall j :: 0 <= j < |cs| ==> !Hits(view, cs[j], mx, my)) ==> s' == s
    ensures (exists j :: 0 <= j < |cs| && Hits(view, cs[j], mx, my)) ==>
      exists i :: 0 <= i < |cs| && Hits(view, cs[i], mx, my)
        && (forall j :: 0 <= j < i ==> !Hits(view, cs[j], mx, my))
        && s' == Grab(view, cs[i], i, mx, my)
  {
    var i := 0;
    while i < |cs|
      invariant 0 <= i <= |cs|
      invariant forall j :: 0 <= j < i ==> !Hits(view, cs[j], mx, my)
    {
      if Hits(view, cs[i], mx, my) {
        s' := Grab(view, cs[i], i, mx, my);
        return;
      }
      i := i + 1;
    }
    s' := s;
  }

  /** A pointer move to (mx, my): the grabbed charge, if any, is placed so
      that it keeps its offset from the pointer. A selection that names no
      charge stores nothing, as the handler throws before it writes. */
  function MouseMove(cs: seq<Charge>, view: View, s: Pointer, mx: real, my: real): (r: seq<Charge>)
    ensures |r| == |cs|
    ensures forall j :: 0 <= j < |cs| && s.selected != Some(j) ==> r[j] == cs[j]
    ensures s.selected.Some? && s.selected.value < |cs| ==>
      && r[s.selected.value].q == cs[s.selected.value].q
      && ToPixel(view, r[s.selected.value].x, r[s.selected.value].y)
         == Point(mx - s.offsetX * Scale, my + s.offsetY * Scale)
  {
    match s.selected
    case None => cs
    case Some(i) =>
      if i < |cs| then
        var w := ToWorld(view, mx, my);
        cs[i := cs[i].(x := w.x - s.offsetX, y := w.y - s.offsetY)]
      else cs
  }

  /** Releasing the button, or the pointer leaving the canvas: nothing is
      grabbed any more. */
  function Release(s: Pointer): (r: Pointer)
    ensures r.selected.None?
    ensures r.offsetX == s.offsetX && r.offsetY == s.offsetY
  {
    s.(selected := None)
  }

  /** A move to the very point of the press that grabbed a charge leaves
      every charge where it was. */
  lemma DragRoundTrip(cs: seq<Charge>, view: View, i: nat, mx: real, my: real)
    requires i < |cs|
    ensures MouseMove(cs, view, Grab(view, cs[i], i, mx, my), mx, my) == cs
  {
    var s := Grab(view, cs[i], i, mx, my);
    var r := MouseMove(cs, view, s, mx, my);
    PixelRoundTrip(view, r[i].x, r[i].y);
    PixelRoundTrip(view, cs[i].x, cs[i].y);
    assert r[i] == cs[i];
    assert r == cs;
  }

  /** After a release, moves drag nothing. */
  lemma ReleasedMoveChangesNothing(cs: seq<Charge>, view: View, s: Pointer, mx: real, my: real)
    ensures MouseMove(cs, view, Release(s), mx, my) == cs
  {
  }

  /** Before any press, moves drag nothing. */
  lemma IdleMoveChangesNothing(cs: seq<Charge>, view: View, mx: real, my: real)
    ensures MouseMove(cs, view, Idle, mx, my) == cs
  {
  }
}

=== FILE: page.dfy ===
/** The page's own instance of `Coulomb.OneChargeAtThree`: the central
    charge `Coulomb.Central`, +1 at the origin. Kept apart from `Coulomb` so
    that the facts about this one constant do not enter the general proofs. */
module Page {
  import opened Charges
  import opened Coulomb

  /** A charge of +1 at (3, 0) acting on
      `Central` gives the magnitude k / 9 along -x. */
  lemma CentralChargeAtThree(sqrt: real -> real)
    requires IsSqrt(sqrt)
    ensures ForceOf(Central, sqrt, Charge(3.0, 0.0, 1.0)) == Defined(K / 9.0, Vec(-K / 9.0, 0.0), Repulsion)
  {
    OneChargeAtThree(Central, sqrt);
    assert Charge(Central.x + 3.0, Central.y, 1.0) == Charge(3.0, 0.0, 1.0);
  }
}

=== FILE: reals.dfy ===
/** Real-number helpers shared by the model: absolute value, `Math.sign`,
    squares and cubes, and the small facts about them the proofs use.
    Products and squares are stated through functions so that the facts
    about them stay usable by the solver. */
module Reals {

  function Abs(x: real): (a: real)
    ensures 0.0 <= a && (a == x || a == -x)
  {
    if x < 0.0 then -x else x
  }

  /** `Math.sign` on a number that is not NaN. */
  function Sign(x: real): (s: real)
    ensures s == 1.0 || s == -1.0 || s == 0.0
    ensures s * x == Abs(x)
    ensures s == 0.0 <==> x == 0.0
    ensures s == 1.0 <==> 0.0 < x
  {
    if x > 0.0 then 1.0 else if x < 0.0 then -1.0 else 0.0
  }

  function Sq(x: real): real { x * x }

  /** `Math.pow(x, 3)`. */
  function Cube(x: real): real { x * x * x }

  /** `a * b` as a named term: two products of equal factors are then the
      same term, which the solver matches without arithmetic. */
  function Product(a: real, b: real): real { a * b }

  lemma ProductPositive(a: real, b: real)
    requires 0.0 < a && 0.0 < b
    ensures 0.0 < Product(a, b)
  {
  }

  lemma SquarePositive(x: real)
    requires x != 0.0
    ensures 0.0 < Sq(x)
  {
    if x < 0.0 {
      ProductPositive(-x, -x);
      assert Product(-x, -x) == Sq(x);
    } else {
      ProductPositive(x, x);
      assert Product(x, x) == Sq(x);
    }
  }

  lemma SquareNonNegative(x: real)
    ensures 0.0 <= Sq(x)
    ensures Sq(x) == 0.0 <==> x == 0.0
  {
    if x != 0.0 {
      SquarePositive(x);
    }
  }

  /** Squaring is strictly increasing on the non-negative reals. */
  lemma SquareMonotone(a: real, b: real)
    requires 0.0 <= a && 0.0 <= b
    ensures a < b <==> Sq(a) < Sq(b)
  {
    if a < b {
      calc { Sq(a); == a * a; <= a * b; < b * b; == Sq(b); }
    } else {
      calc { Sq(b); == b * b; <= b * a; <= a * a; == Sq(a); }
    }
  }

  /** The non-negative root of a square is unique. */
  lemma SquareInjective(a: real, b: real)
    requires 0.0 <= a && 0.0 <= b && Sq(a) == Sq(b)
    ensures a == b
  {
    SquareMonotone(a, b);
    SquareMonotone(b, a);
  }

  lemma CubePositive(x: real)
    requires 0.0 < x
    ensures 0.0 < Cube(x) && Cube(x) == Sq(x) * x
  {
    SquarePositive(x);
    ProductPositive(Sq(x), x);
    assert Product(Sq(x), x) == Cube(x);
  }

  lemma SquareOfProduct(a: real, b: real)
    ensures Sq(a * b) == Sq(a) * Sq(b)
  {
  }

  lemma SquareOfAbs(a: real)
    ensures Sq(Abs(a)) == Sq(a)
  {
  }

  lemma DivideProduct(a: real, b: real, c: real)
    requires c != 0.0
    ensures (a * b) / c == (a / c) * b
  {
  }

  lemma DivideCancel(a: real, s: real, r: real)
    requires s != 0.0 && r != 0.0
    ensures (a / (s * r)) * r == a / s
  {
  }

  /** Dividing by, or multiplying with, a positive number keeps the sign. */
  lemma ScaleKeepsSign(a: real, b: real)
    requires 0.0 < b
    ensures 0.0 < a <==> 0.0 < a / b
    ensures a < 0.0 <==> a / b < 0.0
    ensures 0.0 < a <==> 0.0 < a * b
    ensures a < 0.0 <==> a * b < 0.0
  {
  }

  lemma AbsScale(k: real, a: real, b: real)
    requires 0.0 < k && 0.0 < b
    ensures k * Abs(a) / b == Abs(k * a / b)
  {
    ScaleKeepsSign(k * a, b);
  }
}

=== FILE: wrappers.dfy ===
/** Optional values, used for the selected-charge index and for alerts. */
module Wrappers {

  datatype Option<+T> = None | Some(value: T)
}
